=== FILE: README.md ===
# Station reservations — a Dafny model

This project models the scheduling core of a gaming-lounge booking site. Customers reserve PS5 stations (1..5) or PC stations (1..9) for whole-hour slots on a date. The core has two parts:

- **`lib/reservations.ts`**:
  - `timeToMinutes` turns an `"HH:MM"` string into minutes since midnight.
  - `docToReservation` reads a stored document back, and `saveReservation` builds the payload it stores.
  - `getReservedStationsForSlot` finds the stations of one kind that are taken during a candidate slot. It uses the half-open overlap test `startMin < rEnd && endMin > rStart`.
  - `getDayCalendarGrid` builds the day's hour × station table for each kind (hours 12..23). Each reservation is written into every hour it overlaps, and a later reservation overwrites an earlier one.
- **`components/ReservationContent.tsx`**: the state behind the booking form, without its markup:
  - the station range of the chosen type and the reserved-station list;
  - `toggleStation`, where ps5 allows one station and pc keeps a sorted multi-selection;
  - the type buttons, which empty the selection;
  - `handleSubmit`: a guard, then one save per selected station, then a re-read of the date.

Modules:

- `Minutes` (`minutes.dfy`): JavaScript numbers as `Num = Int(v) | NaN`, `split(":")`, `Number` on digit strings, `timeToMinutes`, and the `"HH:00"` labels of the time options.
- `Records` (`records.dfy`):
  - the `Reservation` record and the stored `Doc`;
  - `docToReservation` and the saved payload;
  - the reservation store, a `Store` class whose `docs` sequence `saveReservation` appends to;
  - the store's date query, `ForDate`.
- `Conflicts` (`conflicts.dfy`): `getReservedStationsForSlot`. It is a method with the source's loop, proved equal to the specification function `ReservedStations`.
- `DayGrid` (`day_grid.dfy`):
  - `getDayCalendarGrid` as a method with the source's nested loops. A grid is `map<int, map<int, Option<Reservation>>>`, with `None` standing for `null`.
  - The method is proved equal to the specification `GridOf`, where each cell holds the last reservation of the kind that overlaps that hour.
- `Selection` (`selection.dfy`): the next-selection expressions of `toggleStation` (`filter`, and spread-then-`sort`).
- `ReservationForm` (`reservation_form.dfy`): the component as the class `Form`. Its fields are the component's state variables, and its methods are the state updates. `HandleSubmit` works against a `Store`.

## Model

| member | source | states |
|---|---|---|
| Minutes.Add | lib/reservations.ts:30 | JavaScript `+`, NaN absorbing; TimeToMinutesDigits gives its value on numbers and TimeToMinutesBadHour shows NaN passing through it |
| Minutes.Scale | lib/reservations.ts:30 | JavaScript `* 60`, NaN staying NaN; stated through TimeToMinutesDigits and TimeToMinutesBadHour |
| Minutes.Lt | lib/reservations.ts:102 | JavaScript `<`, false when either side is NaN; NaNTimeReservesNothing and TouchingDoesNotClash state its effect on the overlap test |
| Minutes.Split | lib/reservations.ts:29 | `split(":")` always yields at least one piece, and no piece contains the separator |
| Minutes.DigitsValue | lib/reservations.ts:29 | the decimal value `Number` gives a digit run, never negative; TimeToMinutesDigits and HourLabelMinutes state it on times |
| Minutes.ToNumber | lib/reservations.ts:29 | `Number` of a part is an integer exactly when the part is a (possibly empty) digit run, and is then non-negative; otherwise NaN |
| Minutes.TimeToMinutes | lib/reservations.ts:28-31 | a numeric result is never negative, which follows from the narrowing of `Number` to digit runs (see Minutes.ToNumber under Left out; in JavaScript `timeToMinutes("-1:00")` is -60); the value for digit parts, the hours-only form and the NaN cases are stated by the three lemmas below |
| Minutes.HourLabel | components/ReservationContent.tsx:293 | the label of an hour below 100 is two digits followed by `":00"` |
| Minutes.TimeToMinutesDigits | lib/reservations.ts:28-31 | for digit strings, `timeToMinutes("HH:MM")` is HH*60+MM |
| Minutes.TimeToMinutesHoursOnly | lib/reservations.ts:28-31 | a time without `:` has a missing minutes part, which counts as 0 |
| Minutes.TimeToMinutesBadHour | lib/reservations.ts:28-31 | a non-numeric hour part makes the result NaN whatever follows |
| Minutes.SplitNoSep | lib/reservations.ts:29 | a string without the separator splits into itself alone |
| Minutes.SplitFirst | lib/reservations.ts:29 | splitting cuts at the first separator and splits the rest |
| Minutes.HourLabelMinutes | components/ReservationContent.tsx:292-293 | every `padStart(2,"0") + ":00"` time label parses back to its hour in minutes |
| Records.KindName | lib/reservations.ts:69 | the stored `type` string of a kind; reading it back with KindOf gives the kind |
| Records.KindOf | lib/reservations.ts:39 | the stored `type` reads as pc exactly when it is `"pc"`; any other value reads as ps5 |
| Records.Truthy | lib/reservations.ts:79 | `if (r.userId)` passes exactly when userId is present and is not the empty string |
| Records.DocToReservation | lib/reservations.ts:33-49 | every field is copied, `type` is coerced to pc/ps5, and `userId` is not copied; createdAt is the timestamp's ISO text, else the stored string, else the current time |
| Records.SavePayload | lib/reservations.ts:68-79 | the payload carries every field, `type` as the kind's own name ("ps5" or "pc"), and the server timestamp; it carries `userId` exactly when `userId` is truthy (present and non-empty) |
| Records.Saved | lib/reservations.ts:81-85 | saveReservation returns its argument with the new id and the client clock, userId kept as given |
| Records.SaveThenRead | lib/reservations.ts:33-49 | reading back a saved payload gives the saved reservation, with the store's creation time and no userId |
| Records.ForDate | lib/reservations.ts:56-63 | reading a date returns at most one reservation per document, every one on that date and without userId; with ForDateHolds and ForDateSound, exactly the readings of that date's documents |
| Records.ForDateAfterSave | lib/reservations.ts:56-86 | after one more save, reading a date yields the previous reading, plus the new reservation last when it is for that date |
| Records.ForDateHolds | lib/reservations.ts:56-63 | every stored document of the date appears in the reading |
| Records.ForDateSound | lib/reservations.ts:56-63 | every reservation in the reading is the reading of a stored document with that date |
| Records.Store.Save | lib/reservations.ts:65-86 | the store gains exactly the payload, appended under the assigned id; the result is the saved reservation |
| Conflicts.SlotEnd | lib/reservations.ts:96 | `start + duration * 60`, NaN for a NaN start; ReservedIff states it in integers |
| Conflicts.Overlap | lib/reservations.ts:102 | the half-open interval test; TouchingDoesNotClash (touching intervals fail it) and ReservedIff (its integer form) state its properties |
| Conflicts.Clashes | lib/reservations.ts:100-102 | a reservation clashes with the slot when its interval passes the overlap test; ClashingMembers and ReservedIff state it |
| Conflicts.OfKind | lib/reservations.ts:97 | the filter never lengthens the list; OfKindMembers states which reservations it keeps |
| Conflicts.OfKindMembers | lib/reservations.ts:97 | the filter keeps exactly the reservations of the kind |
| Conflicts.ClashingStations | lib/reservations.ts:99-103 | the loop collects at most one station per reservation; ClashingMembers states which |
| Conflicts.ClashingMembers | lib/reservations.ts:99-103 | a station is collected iff some reservation on it passes the overlap test |
| Conflicts.Dedup | lib/reservations.ts:98-104 | `Array.from(new Set(...))` has no duplicates and the same members |
| Conflicts.ReservedStations | lib/reservations.ts:89-105 | the stations returned for a slot have no duplicates; ReservedMembers and ReservedIff state which stations they are |
| Conflicts.ReservedMembers | lib/reservations.ts:95-104 | station s is returned iff some reservation of the kind on s overlaps the slot |
| Conflicts.GetReservedStationsForSlot | lib/reservations.ts:89-105 | the loop returns the reserved-station specification: no duplicates, and s is in it iff some reservation of kind k on s overlaps the slot |
| Conflicts.ReservedIff | lib/reservations.ts:95-104 | with numeric times, s is returned iff some r of kind k on s has `start < rStart + r.duration*60 && start + d*60 > rStart` |
| Conflicts.TouchingDoesNotClash | lib/reservations.ts:102 | a reservation that ends exactly at the slot start, or starts exactly at the slot end, is not a conflict |
| Conflicts.NaNTimeReservesNothing | lib/reservations.ts:95-102 | a candidate time that parses to NaN reports no station |
| Conflicts.OfKindConcat | lib/reservations.ts:97 | filtering by kind distributes over concatenation |
| Conflicts.OtherKindIgnored | lib/reservations.ts:97 | inserting a reservation of the other kind anywhere changes nothing, order included |
| Conflicts.PermutationInvariant | lib/reservations.ts:98-104 | permuting the list leaves the set of reported stations unchanged |
| Conflicts.SingleReservation | lib/reservations.ts:89-105 | a one-element list reports its station exactly when it has the kind and overlaps |
| Conflicts.NothingClashes | lib/reservations.ts:102 | when no reservation passes the overlap test, nothing is collected |
| Conflicts.OnTheHourExamples | lib/reservations.ts:28-31 | "13:00" and "15:00" parse to 780 and 900 |
| Conflicts.HalfPastOne | lib/reservations.ts:28-31 | "13:30" parses to 810 |
| Conflicts.PcStationThreeExample | lib/reservations.ts:89-105 | pc station 3 booked 13:00 for 2 h is reported for 13:30 (1 h) but not for 15:00 (1 h) |
| DayGrid.DayHours | lib/reservations.ts:112 | the hours shown in the calendar; DayHoursAt states they are 12..23 in order |
| DayGrid.DayHoursAt | lib/reservations.ts:112 | `DAY_HOURS` is exactly the twelve hours 12..23 in order |
| DayGrid.StationCount | lib/reservations.ts:121-122 | 5 ps5 stations and 9 pc stations; EmptyGrids and GridShape state the rows they give |
| DayGrid.NullsBelow | lib/reservations.ts:119-122 | the fresh row of a kind; NullsBelowKeys states that it holds exactly stations 1..n-1, all null |
| DayGrid.WritesCell | lib/reservations.ts:127-132 | reservation r is written into cell (h, s) of grid k; WritersMembers and CellIff state it |
| DayGrid.RowKeys | lib/reservations.ts:119-132 | the stations of the kind plus any station written into the hour; RowKeysStep, GridShape and OutOfRangeStationAddsKey state it |
| DayGrid.CoversHour | lib/reservations.ts:129-131 | the overlap test of a reservation with hour h; CoversHourIff states it in minutes |
| DayGrid.Writers | lib/reservations.ts:124-133 | there are never more writers of a cell than reservations; WritersMembers states exactly which |
| DayGrid.Occupant | lib/reservations.ts:132 | a non-null cell holds a listed reservation of the grid's kind booked on that station |
| DayGrid.RowOf | lib/reservations.ts:119-133 | every non-null cell of a row holds a reservation of the grid's kind on that cell's station |
| DayGrid.GridOf | lib/reservations.ts:115-137 | the calendar of a kind has exactly the hours 12..23 as rows |
| DayGrid.NullsBelowKeys | lib/reservations.ts:121-122 | a fresh row holds exactly the stations 1..n-1, all null |
| DayGrid.EmptyRow | lib/reservations.ts:119-122 | with no reservations a row is the fresh all-null row of its kind |
| DayGrid.RowKeysStep | lib/reservations.ts:132 | one more reservation adds at most its own station to the keys of a row it covers |
| DayGrid.OccupantStep | lib/reservations.ts:132 | one more reservation becomes the occupant of every cell it writes; other cells keep theirs |
| DayGrid.RowStep | lib/reservations.ts:128-133 | one more reservation changes exactly its own station's cell in each hour it overlaps |
| DayGrid.WritersConcat | lib/reservations.ts:124-133 | the writers of a cell distribute over concatenation |
| DayGrid.WritersMembers | lib/reservations.ts:124-133 | the writers of cell (h, s) are exactly the reservations of the kind on s that overlap hour h |
| DayGrid.NoWriters | lib/reservations.ts:124-133 | a cell nobody overlaps has no writers |
| DayGrid.OccupantOtherKind | lib/reservations.ts:127 | a reservation of the other kind never changes a cell |
| DayGrid.RowOtherKind | lib/reservations.ts:127 | a reservation of the other kind never changes a row |
| DayGrid.OtherKindLeavesGrid | lib/reservations.ts:127 | a ps5 reservation never changes the pc grid and vice versa, wherever it sits in the list |
| DayGrid.OtherKindAppended | lib/reservations.ts:127 | appending a reservation of the other kind leaves the grid unchanged |
| DayGrid.MarkHours | lib/reservations.ts:125-134 | the inner hour loop turns the grid of the reservations so far into the grid with r added |
| DayGrid.EmptyGrids | lib/reservations.ts:116-123 | the first pass builds the grids of the empty list: hours 12..23 × stations 1..5 / 1..9, all null |
| DayGrid.GetDayCalendarGrid | lib/reservations.ts:115-137 | the nested loops return exactly the specification grids of both kinds |
| DayGrid.GridShape | lib/reservations.ts:112-123 | with in-range stations, the grid has exactly hours 12..23, each with stations 1..5 (ps5) or 1..9 (pc) |
| DayGrid.EmptyUpToAll | lib/reservations.ts:118-123 | twelve all-null rows, one per hour of `DAY_HOURS`, make up the grid of the empty list |
| DayGrid.EmptyListAllNull | lib/reservations.ts:116-123 | with an empty list every cell is null |
| DayGrid.OutOfRangeStationAddsKey | lib/reservations.ts:132 | a station outside 1..5 / 1..9 that overlaps a shown hour adds an extra key to that row |
| DayGrid.CellIff | lib/reservations.ts:124-135 | cell (h, s) is non-null iff some reservation of the kind on s overlaps [h*60, (h+1)*60) |
| DayGrid.CellHoldsWriter | lib/reservations.ts:124-135 | a non-null cell holds one of the listed reservations of its kind and station that overlaps the hour |
| DayGrid.CellIsLastWriter | lib/reservations.ts:132 | the cell holds the last reservation in list order that writes it |
| DayGrid.CoversHourIff | lib/reservations.ts:129-131 | with a numeric start, a reservation covers hour h iff `start < (h+1)*60 && start + duration*60 > h*60` |
| DayGrid.SingleCell | lib/reservations.ts:124-135 | with one in-range reservation, its station's cell in each shown hour is the reservation if it covers the hour and null otherwise |
| DayGrid.TwoHoursFromFourteen | lib/reservations.ts:124-135 | a 14:00 start for 2 h marks hours 14 and 15 but not 13 or 16 |
| DayGrid.UnseenReservation | lib/reservations.ts:128-133 | a reservation that overlaps no hour 12..23 leaves the grid unchanged |
| DayGrid.MidnightStartNotShown | lib/reservations.ts:112 | a booking that starts at the 24:00 option never appears in the grid |
| DayGrid.LateBookingClipped | lib/reservations.ts:112 | a 23:00 booking appears only in hour 23, whatever its duration |
| DayGrid.BackToBack | lib/reservations.ts:102-131 | back-to-back bookings of one station fill consecutive hours and do not conflict |
| Selection.Without | components/ReservationContent.tsx:335 | `filter((s) => s !== num)` keeps exactly the other members and preserves strict ascent |
| Selection.WithoutCounts | components/ReservationContent.tsx:335 | the filter removes every copy of num and keeps every other value as often as it occurs |
| Selection.Insert | components/ReservationContent.tsx:335 | inserting yields the old multiset plus x |
| Selection.InsertMembers | components/ReservationContent.tsx:335 | the inserted list holds exactly the old values and x |
| Selection.InsertAscending | components/ReservationContent.tsx:335 | inserting into an ascending list keeps it ascending |
| Selection.InsertStrict | components/ReservationContent.tsx:335 | inserting a new value into a strictly ascending list keeps it strictly ascending |
| Selection.SortAscending | components/ReservationContent.tsx:335 | the numeric sort returns an ascending permutation of its input |
| Selection.InsertLargest | components/ReservationContent.tsx:335 | a value no smaller than every element goes last |
| Selection.SortAscendingFixes | components/ReservationContent.tsx:335 | sorting an already ascending list leaves it unchanged |
| Selection.AddStation | components/ReservationContent.tsx:335 | `[...prev, num].sort((a, b) => a - b)` is ascending and holds prev's stations plus num, counted with multiplicity |
| Selection.AddStationInPlace | components/ReservationContent.tsx:335 | spread-then-sort of a new station into a sorted selection inserts it in place, sorted and duplicate-free |
| Selection.ToggleOne | components/ReservationContent.tsx:332 | the ps5 next selection has at most one station: empty iff num was selected, otherwise exactly num |
| Selection.ToggleMany | components/ReservationContent.tsx:335 | for a selected num the result holds exactly the other stations; otherwise it is prev with num added, counted with multiplicity |
| Selection.ToggleManyFlips | components/ReservationContent.tsx:334-336 | the pc next selection flips num's membership only, and stays sorted and duplicate-free |
| ReservationForm.Batch | components/ReservationContent.tsx:121-133 | one stored document per selected station |
| ReservationForm.BatchDocs | components/ReservationContent.tsx:121-133 | the i-th document is the shared fields with the i-th selected station, under the i-th id |
| ReservationForm.SaveEach | components/ReservationContent.tsx:121-133 | the save loop appends exactly the batch of the selected stations to the store, in order |
| ReservationForm.BatchStep | components/ReservationContent.tsx:121-133 | the batch for one more station is the previous batch plus that station's document |
| ReservationForm.BatchStationsReserved | components/ReservationContent.tsx:121-135 | after a batch is stored, re-reading its date reports any one of its stations as reserved for its slot |
| ReservationForm.SubmittedStationsReserved | components/ReservationContent.tsx:121-135 | after the saves, re-reading the date reports every submitted station as reserved for the submitted slot |
| ReservationForm.Hours | components/ReservationContent.tsx:20 | `HOURS`, the hours offered by the time select; HoursAt states they are 12..24 in order |
| ReservationForm.HoursAt | components/ReservationContent.tsx:20 | `HOURS` is the thirteen hours 12..24 in order |
| ReservationForm.TimeOptions | components/ReservationContent.tsx:291-298 | the time select offers "" and then, in order, the label of each `HOURS` entry |
| ReservationForm.TimeOptionsMinutes | components/ReservationContent.tsx:292-293 | the options parse to 12:00 (720) … 24:00 (1440) |
| ReservationForm.Form.constructor | components/ReservationContent.tsx:80-89 | the initial state: no type, empty selection, date and time, duration 1, no reservations, not submitted |
| ReservationForm.Form.MaxStation | components/ReservationContent.tsx:97 | 5 for ps5, 9 for pc, and 0 exactly when no type is chosen |
| ReservationForm.Form.Stations | components/ReservationContent.tsx:97-98 | the selectable stations are exactly 1..5 for ps5, 1..9 for pc, none without a type, in ascending order |
| ReservationForm.Form.DisplayDate | components/ReservationContent.tsx:100 | the chosen date when one is set, otherwise today's; empty only when both are empty |
| ReservationForm.Form.ReservedStationNums | components/ReservationContent.tsx:102-105 | empty unless type and time are set; otherwise getReservedStationsForSlot on the loaded reservations, i.e. exactly the stations of the type that a loaded reservation occupies during the slot, with no duplicates |
| ReservationForm.Form.CanSubmit | components/ReservationContent.tsx:119 | its body is the submit guard (user, type, a selected station, and non-empty time, name, phone and email); its ensures gives a signed-in user, a chosen type and a non-empty selection |
| ReservationForm.Form.Template | components/ReservationContent.tsx:122-132 | every save of one submission carries the same type, date, time, duration, contact fields and userId |
| ReservationForm.Form.SelectType | components/ReservationContent.tsx:229-254 | choosing ps5 or pc sets the type and empties the selection |
| ReservationForm.Form.SetDate | components/ReservationContent.tsx:198 | the date input sets the date |
| ReservationForm.Form.SetTime | components/ReservationContent.tsx:288 | the time select sets the time |
| ReservationForm.Form.SetDuration | components/ReservationContent.tsx:309-315 | the duration select sets one of 1..4 hours |
| ReservationForm.Form.SetContact | components/ReservationContent.tsx:379-406 | the inputs set name, phone and email |
| ReservationForm.Form.LoadReservations | components/ReservationContent.tsx:107-111 | a completed fetch replaces the loaded reservations |
| ReservationForm.Form.Prefill | components/ReservationContent.tsx:91-95 | once signed in, an empty email or name is filled from the account's non-empty email or display name; nothing else changes |
| ReservationForm.Form.ToggleStation | components/ReservationContent.tsx:329-338 | a reserved station leaves the selection unchanged; ps5 gives [] or [num]; pc flips num's membership only; the selection stays sorted, duplicate-free and within the picker |
| ReservationForm.Form.HandleSubmit | components/ReservationContent.tsx:117-138 | without user, type, stations, time, name, phone and email nothing changes; otherwise one save per station in order, then the date is re-read, submitted is set, the selection is emptied, and every submitted station shows as reserved |

## Left out

- Network access to the document store (`getDocs`, `addDoc`, `query`, `where`; lib/reservations.ts:51-63, 80). The store is the `Store` class, an append-only sequence of documents. The date query has no `orderBy`, so the source does not fix its result order (the store's default is ascending document id). The model returns the matching documents in store (insertion) order instead. The grid's last-writer rule (`CellIsLastWriter`) depends on that order, so which of two overlapping bookings of one cell is shown may differ from the real store.
- `getReservations` (lib/reservations.ts:51-54): the unfiltered read of the whole collection. It is the same mapping as the date query, without the filter, and the component does not use it.
- Clocks and identifiers are parameters: `new Date().toISOString()` (`now`), `serverTimestamp()` (`serverNow`), the current date used when no date is chosen (`today`), and the document ids the store assigns (`ids`).
- Records.DocToReservation: the stored fields are already typed (station and duration are integers, the other fields strings). The `Number(...)`/`String(...)` coercions of other stored values are not modelled.
- Minutes.ToNumber: models `Number` only on digit runs (the empty string gives 0). Whitespace trimming, signs, decimals, exponents and hexadecimal forms are not modelled; any other string gives NaN. Durations and minutes are integers, so floating-point values are not modelled.
- Failed saves are not modelled. A rejected save in `handleSubmit` would stop the loop and leave the earlier saves in place.
- The async effects and the `cancelled` guard of the date re-fetch (components/ReservationContent.tsx:107-115) are not modelled. A delivered fetch is `LoadReservations`.
- `handleSubmit` runs sequentially. Interleaving of its `await`s with other updates is not modelled.
- Authentication is not modelled: the `useAuth` hook, sign-in and sign-out. The user is the constructor's `user` parameter, standing for the signed-in user's uid.
- Markup is not modelled: the JSX, the calendar table rendering, the success banner, and the translations.
- DayGrid.MarkHours: the alias `grid` of `ps5` or `pc` is modelled by returning the updated grid and assigning it back to the variable it came from.

=== FILE: conflicts.dfy ===
/** getReservedStationsForSlot of lib/reservations.ts: which stations of a
    kind are already taken during a candidate slot, by the half-open
    interval test `startMin < rEnd && endMin > rStart`. */
module Conflicts {
  import opened Minutes
  import opened Records

  /** `start + duration * 60`. */
  function SlotEnd(start: Num, duration: int): Num {
    Add(start, Int(duration * 60))
  }

  /** `startMin < rEnd && endMin > rStart`, with JavaScript comparisons. */
  predicate Overlap(start: Num, end: Num, rStart: Num, rEnd: Num) {
    Lt(start, rEnd) && Lt(rStart, end)
  }

  /** Reservation r occupies part of the slot [start, end). */
  predicate Clashes(r: Reservation, start: Num, end: Num) {
    var rStart := TimeToMinutes(r.time);
    Overlap(start, end, rStart, SlotEnd(rStart, r.duration))
  }

  /** `reservations.filter((r) => r.type === type)`. */
  function OfKind(rs: seq<Reservation>, k: Kind): (out: seq<Reservation>)
    ensures |out| <= |rs|
  {
    if rs == [] then []
    else OfKind(rs[..|rs| - 1], k) + (if rs[|rs| - 1].kind == k then [rs[|rs| - 1]] else [])
  }

  /** The station of every reservation that clashes with [start, end), in
      list order, repetitions kept. */
  function ClashingStations(rs: seq<Reservation>, start: Num, end: Num): (out: seq<int>)
    ensures |out| <= |rs|
  {
    if rs == [] then []
    else
      var r := rs[|rs| - 1];
      var before := ClashingStations(rs[..|rs| - 1], start, end);
      if Clashes(r, start, end) then before + [r.station] else before
  }

  lemma {:induction false} OfKindMembers(rs: seq<Reservation>, k: Kind)
    ensures forall r :: r in OfKind(rs, k) <==> r in rs && r.kind == k
  {
    if rs != [] {
      OfKindMembers(rs[..|rs| - 1], k);
      assert rs == rs[..|rs| - 1] + [rs[|rs| - 1]];
    }
  }

  lemma {:induction false} ClashingMembers(rs: seq<Reservation>, start: Num, end: Num)
    ensures forall s :: s in ClashingStations(rs, start, end) <==>
      exists r :: r in rs && r.station == s && Clashes(r, start, end)
  {
    if rs != [] {
      ClashingMembers(rs[..|rs| - 1], start, end);
      assert rs == rs[..|rs| - 1] + [rs[|rs| - 1]];
    }
  }

  /** The stations reported for a slot: exactly those of a reservation of
      the kind that clashes with it. */
  lemma ReservedMembers(rs: seq<Reservation>, k: Kind, time: string, duration: int)
    ensures forall s :: s in ReservedStations(rs, k, time, duration) <==>
      exists r :: r in rs && r.kind == k && r.station == s &&
                  Clashes(r, TimeToMinutes(time), SlotEnd(TimeToMinutes(time), duration))
  {
    var start := TimeToMinutes(time);
    OfKindMembers(rs, k);
    ClashingMembers(OfKind(rs, k), start, SlotEnd(start, duration));
  }

  lemma {:induction false} NothingClashes(rs: seq<Reservation>, start: Num, end: Num)
    requires forall r :: r in rs ==> !Clashes(r, start, end)
    ensures ClashingStations(rs, start, end) == []
  {
    if rs != [] {
      assert rs[|rs| - 1] in rs;
      NothingClashes(rs[..|rs| - 1], start, end);
    }
  }

  predicate NoDuplicates(s: seq<int>) {
    forall i, j :: 0 <= i < j < |s| ==> s[i] != s[j]
  }

  /** `Array.from(new Set(s))`: each value once, at its first occurrence. */
  function Dedup(s: seq<int>): (d: seq<int>)
    ensures NoDuplicates(d)
    ensures forall x :: x in d <==> x in s
  {
    if s == [] then []
    else
      var d := Dedup(s[..|s| - 1]);
      assert forall x :: x in s <==> x in s[..|s| - 1] || x == s[|s| - 1];
      if s[|s| - 1] in d then d else d + [s[|s| - 1]]
  }

  /** The value getReservedStationsForSlot returns. */
  function ReservedStations(rs: seq<Reservation>, k: Kind, time: string, duration: int): (stations: seq<int>)
    ensures NoDuplicates(stations)
  {
    var start := TimeToMinutes(time);
    Dedup(ClashingStations(OfKind(rs, k), start, SlotEnd(start, duration)))
  }

  /** getReservedStationsForSlot: filter by kind, then add the station of
      every clashing reservation to a set kept in insertion order. */
  method GetReservedStationsForSlot(rs: seq<Reservation>, k: Kind, time: string, duration: int)
    returns (stations: seq<int>)
    ensures stations == ReservedStations(rs, k, time, duration)
    ensures NoDuplicates(stations)
    ensures forall s :: s in stations <==>
      exists r :: r in rs && r.kind == k && r.station == s &&
                  Clashes(r, TimeToMinutes(time), SlotEnd(TimeToMinutes(time), duration))
  {
    var startMin := TimeToMinutes(time);
    var endMin := SlotEnd(startMin, duration);
    var ofType := OfKind(rs, k);
    stations := [];
    for i := 0 to |ofType|
      invariant stations == Dedup(ClashingStations(ofType[..i], startMin, endMin))
    {
      var r := ofType[i];
      var rStart := TimeToMinutes(r.time);
      var rEnd := SlotEnd(rStart, r.duration);
      assert ofType[..i + 1][..i] == ofType[..i];
      if Lt(startMin, rEnd) && Lt(rStart, endMin) {
        if r.station !in stations {
          stations := stations + [r.station];
        }
      }
    }
    assert ofType[..|ofType|] == ofType;
    ReservedMembers(rs, k, time, duration);
  }

  /** For numeric times, station s is reported iff some reservation of the
      kind on s satisfies `start < rStart + duration * 60 && start + d * 60 > rStart`. */
  lemma ReservedIff(rs: seq<Reservation>, k: Kind, time: string, duration: int, s: int)
    requires TimeToMinutes(time).Int?
    requires forall r :: r in rs ==> TimeToMinutes(r.time).Int?
    ensures s in ReservedStations(rs, k, time, duration) <==>
      exists r :: r in rs && r.kind == k && r.station == s &&
                  TimeToMinutes(time).v < TimeToMinutes(r.time).v + r.duration * 60 &&
                  TimeToMinutes(time).v + duration * 60 > TimeToMinutes(r.time).v
  {
    ReservedMembers(rs, k, time, duration);
  }

  /** A reservation ending exactly when the slot starts, or starting exactly
      when the slot ends, does not clash. */
  lemma TouchingDoesNotClash(r: Reservation, start: int, duration: int)
    requires TimeToMinutes(r.time).Int?
    requires TimeToMinutes(r.time).v + r.duration * 60 == start || TimeToMinutes(r.time).v == start + duration * 60
    ensures !Clashes(r, Int(start), SlotEnd(Int(start), duration))
  {
  }

  /** A candidate time that is not a number (NaN) clashes with nothing. */
  lemma NaNTimeReservesNothing(rs: seq<Reservation>, k: Kind, time: string, duration: int)
    requires TimeToMinutes(time) == NaN
    ensures ReservedStations(rs, k, time, duration) == []
  {
    NothingClashes(OfKind(rs, k), NaN, SlotEnd(NaN, duration));
  }

  lemma {:induction false} OfKindConcat(a: seq<Reservation>, b: seq<Reservation>, k: Kind)
    ensures OfKind(a + b, k) == OfKind(a, k) + OfKind(b, k)
  {
    if b == [] {
      assert a + b == a;
    } else {
      var b' := b[..|b| - 1];
      assert (a + b)[..|a + b| - 1] == a + b';
      OfKindConcat(a, b', k);
    }
  }

  /** A reservation of the other kind never contributes: removing it from
      anywhere in the list changes nothing, order included. */
  lemma OtherKindIgnored(a: seq<Reservation>, r: Reservation, b: seq<Reservation>, k: Kind, time: string, duration: int)
    requires r.kind != k
    ensures ReservedStations(a + [r] + b, k, time, duration) == ReservedStations(a + b, k, time, duration)
  {
    assert OfKind([r], k) == [] by { assert [r][..0] == []; }
    calc {
      OfKind(a + [r] + b, k);
      { OfKindConcat(a + [r], b, k); }
      OfKind(a + [r], k) + OfKind(b, k);
      { OfKindConcat(a, [r], k); }
      OfKind(a, k) + OfKind([r], k) + OfKind(b, k);
      OfKind(a, k) + OfKind(b, k);
      { OfKindConcat(a, b, k); }
      OfKind(a + b, k);
    }
  }

  /** Permuting the list leaves the set of reported stations unchanged
      (only the order, Set insertion order, may differ). */
  lemma PermutationInvariant(rs1: seq<Reservation>, rs2: seq<Reservation>, k: Kind, time: string, duration: int)
    requires multiset(rs1) == multiset(rs2)
    ensures forall s :: s in ReservedStations(rs1, k, time, duration) <==> s in ReservedStations(rs2, k, time, duration)
  {
    ReservedMembers(rs1, k, time, duration);
    ReservedMembers(rs2, k, time, duration);
    forall r
      ensures r in rs1 <==> r in rs2
    {
      assert r in rs1 <==> r in multiset(rs1);
      assert r in rs2 <==> r in multiset(rs2);
    }
  }

  /** A one-element list reports its station exactly when it is of the
      kind and clashes. */
  lemma SingleReservation(r: Reservation, k: Kind, time: string, duration: int)
    ensures ReservedStations([r], k, time, duration)
         == if r.kind == k && Clashes(r, TimeToMinutes(time), SlotEnd(TimeToMinutes(time), duration))
            then [r.station] else []
  {
    assert [r][..0] == [];
    var start := TimeToMinutes(time);
    var end := SlotEnd(start, duration);
    if r.kind == k {
      assert OfKind([r], k) == [r];
      assert ClashingStations([r][..0], start, end) == [];
      assert Dedup([r.station]) == [r.station] by { assert [r.station][..0] == []; }
    } else {
      assert OfKind([r], k) == [];
    }
  }

  /** Two on-the-hour times, in the form the time options use. */
  lemma OnTheHourExamples()
    ensures TimeToMinutes("13:00") == Int(780)
    ensures TimeToMinutes("15:00") == Int(900)
  {
    assert "13:00" == HourLabel(13);
    assert "15:00" == HourLabel(15);
    HourLabelMinutes(13);
    HourLabelMinutes(15);
  }

  lemma HalfPastOne()
    ensures TimeToMinutes("13:30") == Int(810)
  {
    assert DigitsValue("13") == 13 by { assert "13"[..1] == "1"; assert "1"[..0] == ""; }
    assert DigitsValue("30") == 30 by { assert "30"[..1] == "3"; assert "3"[..0] == ""; }
    TimeToMinutesDigits("13", "30");
    assert "13:30" == "13" + ":" + "30";
  }

  /** The worked example: pc station 3 booked at 13:00 for two hours is
      reported for 13:30 (one hour) and not for 15:00 (one hour). */
  lemma PcStationThreeExample(r: Reservation)
    requires r.kind == Pc && r.station == 3 && r.time == "13:00" && r.duration == 2
    ensures ReservedStations([r], Pc, "13:30", 1) == [3]
    ensures ReservedStations([r], Pc, "15:00", 1) == []
  {
    OnTheHourExamples();
    HalfPastOne();
    SingleReservation(r, Pc, "13:30", 1);
    SingleReservation(r, Pc, "15:00", 1);
  }
}

=== FILE: day_grid.dfy ===
/** getDayCalendarGrid of lib/reservations.ts: the occupancy calendar of one
    day, hours 12..23 by station, for each kind. Each reservation is written
    into every hour cell its interval overlaps; a later reservation
    overwrites an earlier one. */
module DayGrid {
  import opened Minutes
  import opened Records
  import opened Conflicts

  /** DAY_HOURS: the hours shown in the calendar. */
  const DayHours: seq<int> := [12, 13, 14, 15, 16, 17, 18, 19, 20, 21, 22, 23]

  /** Stations per kind: 5 consoles, 9 PCs. */
  function StationCount(k: Kind): nat {
    match k
    case Ps5 => 5
    case Pc => 9
  }

  /** One hour of the calendar: station number to occupant (None is null). */
  type Row = map<int, Option<Reservation>>

  /** One kind's calendar: hour to row. */
  type Grid = map<int, Row>

  lemma DayHoursAt()
    ensures |DayHours| == 12
    ensures forall j :: 0 <= j < 12 ==> DayHours[j] == 12 + j
    ensures forall h :: h in DayHours <==> 12 <= h <= 23
  {
  }

  /** The reservation's interval overlaps the hour slot [h * 60, (h + 1) * 60). */
  predicate CoversHour(r: Reservation, h: int)
  {
    var start := TimeToMinutes(r.time);
    Overlap(start, SlotEnd(start, r.duration), Int(h * 60), Int((h + 1) * 60))
  }

  /** Reservation r is written into cell (h, s) of the kind-k grid. */
  predicate WritesCell(r: Reservation, k: Kind, h: int, s: int) {
    r.kind == k && r.station == s && CoversHour(r, h)
  }

  /** The reservations written into cell (h, s) of grid k, in list order. */
  function Writers(rs: seq<Reservation>, k: Kind, h: int, s: int): (w: seq<Reservation>)
    ensures |w| <= |rs|
  {
    if rs == [] then []
    else
      var last := rs[|rs| - 1];
      Writers(rs[..|rs| - 1], k, h, s) + (if WritesCell(last, k, h, s) then [last] else [])
  }

  /** What cell (h, s) holds at the end: the last writer, or null. */
  function Occupant(rs: seq<Reservation>, k: Kind, h: int, s: int): (o: Option<Reservation>)
    ensures o.Some? ==> o.value in rs && o.value.kind == k && o.value.station == s
  {
    var w := Writers(rs, k, h, s);
    WritersMembers(rs, k, h, s);
    if w == [] then None else Some(w[|w| - 1])
  }

  /** The station keys of row h: 1..StationCount(k), plus the station of any
      reservation written into that hour (an out-of-range station adds a key). */
  function RowKeys(rs: seq<Reservation>, k: Kind, h: int): set<int> {
    NullsBelow(StationCount(k) + 1).Keys + (set r | r in rs && r.kind == k && CoversHour(r, h) :: r.station)
  }

  function RowOf(rs: seq<Reservation>, k: Kind, h: int): (row: Row)
    ensures forall s :: s in row && row[s].Some? ==> row[s].value.station == s && row[s].value.kind == k
  {
    map s | s in RowKeys(rs, k, h) :: Occupant(rs, k, h, s)
  }

  /** The calendar of kind k that getDayCalendarGrid builds from rs. */
  function GridOf(rs: seq<Reservation>, k: Kind): (grid: Grid)
    ensures forall h :: h in grid <==> 12 <= h <= 23
  {
    DayHoursAt();
    map h | h in DayHours :: RowOf(rs, k, h)
  }

  /** Stations 1 .. n - 1, each null. */
  function NullsBelow(n: int): Row
    decreases n
  {
    if n <= 1 then map[] else NullsBelow(n - 1)[n - 1 := None]
  }

  lemma {:induction false} NullsBelowKeys(n: int)
    ensures forall t :: t in NullsBelow(n) <==> 1 <= t < n
    ensures forall t :: t in NullsBelow(n) ==> NullsBelow(n)[t] == None
    decreases n
  {
    if n > 1 {
      NullsBelowKeys(n - 1);
    }
  }

  /** An empty row: every station of the kind, each null. */
  lemma EmptyRow(k: Kind, h: int)
    ensures RowOf([], k, h) == NullsBelow(StationCount(k) + 1)
  {
    NullsBelowKeys(StationCount(k) + 1);
    assert RowOf([], k, h).Keys == NullsBelow(StationCount(k) + 1).Keys;
  }

  /** One more reservation of the kind adds at most its own station to the
      keys of a row it covers. */
  lemma RowKeysStep(rs: seq<Reservation>, r: Reservation, h: int)
    ensures RowKeys(rs + [r], r.kind, h) == RowKeys(rs, r.kind, h) + (if CoversHour(r, h) then {r.station} else {})
  {
    assert forall x :: x in rs + [r] <==> x in rs || x == r;
  }

  /** One more reservation becomes the occupant of every cell it writes;
      other cells keep their occupant. */
  lemma OccupantStep(rs: seq<Reservation>, r: Reservation, h: int, s: int)
    ensures Occupant(rs + [r], r.kind, h, s)
         == if WritesCell(r, r.kind, h, s) then Some(r) else Occupant(rs, r.kind, h, s)
  {
    assert (rs + [r])[..|rs + [r]| - 1] == rs;
  }

  /** Appending a reservation of kind k changes row h of grid k only by
      writing it into its station's cell, and only if it covers the hour. */
  lemma RowStep(rs: seq<Reservation>, r: Reservation, h: int)
    ensures RowOf(rs + [r], r.kind, h)
         == if CoversHour(r, h) then RowOf(rs, r.kind, h)[r.station := Some(r)] else RowOf(rs, r.kind, h)
  {
    if CoversHour(r, h) {
      RowStepCovers(rs, r, h);
    } else {
      RowStepMisses(rs, r, h);
    }
  }

  lemma RowStepCovers(rs: seq<Reservation>, r: Reservation, h: int)
    requires CoversHour(r, h)
    ensures RowOf(rs + [r], r.kind, h) == RowOf(rs, r.kind, h)[r.station := Some(r)]
  {
    var before := RowOf(rs, r.kind, h);
    var after := RowOf(rs + [r], r.kind, h);
    var expected := before[r.station := Some(r)];
    RowKeysStep(rs, r, h);
    assert after.Keys == expected.Keys;
    forall s | s in after
      ensures after[s] == expected[s]
    {
      OccupantStep(rs, r, h, s);
      if s != r.station {
        assert after[s] == Occupant(rs, r.kind, h, s) == before[s];
      }
    }
  }

  lemma RowStepMisses(rs: seq<Reservation>, r: Reservation, h: int)
    requires !CoversHour(r, h)
    ensures RowOf(rs + [r], r.kind, h) == RowOf(rs, r.kind, h)
  {
    var before := RowOf(rs, r.kind, h);
    var after := RowOf(rs + [r], r.kind, h);
    RowKeysStep(rs, r, h);
    assert after.Keys == before.Keys;
    forall s | s in after
      ensures after[s] == before[s]
    {
      OccupantStep(rs, r, h, s);
    }
  }

  lemma {:induction false} WritersConcat(a: seq<Reservation>, b: seq<Reservation>, k: Kind, h: int, s: int)
    ensures Writers(a + b, k, h, s) == Writers(a, k, h, s) + Writers(b, k, h, s)
  {
    if b == [] {
      assert a + b == a;
    } else {
      var b' := b[..|b| - 1];
      assert (a + b)[..|a + b| - 1] == a + b';
      WritersConcat(a, b', k, h, s);
    }
  }

  lemma OccupantOtherKind(a: seq<Reservation>, r: Reservation, b: seq<Reservation>, k: Kind, h: int, s: int)
    requires r.kind != k
    ensures Occupant(a + [r] + b, k, h, s) == Occupant(a + b, k, h, s)
  {
    assert Writers([r], k, h, s) == [] by { assert [r][..0] == []; }
    WritersConcat(a + [r], b, k, h, s);
    WritersConcat(a, [r], k, h, s);
    WritersConcat(a, b, k, h, s);
    assert Writers(a, k, h, s) + [] == Writers(a, k, h, s);
  }

  lemma RowKeysOtherKind(a: seq<Reservation>, r: Reservation, b: seq<Reservation>, k: Kind, h: int)
    requires r.kind != k
    ensures RowKeys(a + [r] + b, k, h) == RowKeys(a + b, k, h)
  {
    assert forall x :: x in a + [r] + b <==> x in a + b || x == r;
  }

  lemma RowOtherKind(a: seq<Reservation>, r: Reservation, b: seq<Reservation>, k: Kind, h: int)
    requires r.kind != k
    ensures RowOf(a + [r] + b, k, h) == RowOf(a + b, k, h)
  {
    RowKeysOtherKind(a, r, b, k, h);
    var x, y := RowOf(a + [r] + b, k, h), RowOf(a + b, k, h);
    assert x.Keys == y.Keys;
    forall s | s in x
      ensures x[s] == y[s]
    {
      OccupantOtherKind(a, r, b, k, h, s);
    }
  }

  /** A reservation of the other kind never changes a grid: removing it from
      anywhere in the list leaves grid k as it was. */
  lemma OtherKindLeavesGrid(a: seq<Reservation>, r: Reservation, b: seq<Reservation>, k: Kind)
    requires r.kind != k
    ensures GridOf(a + [r] + b, k) == GridOf(a + b, k)
  {
    var x, y := GridOf(a + [r] + b, k), GridOf(a + b, k);
    forall h | h in x
      ensures x[h] == y[h]
    {
      RowOtherKind(a, r, b, k, h);
    }
  }

  lemma OtherKindAppended(rs: seq<Reservation>, r: Reservation, k: Kind)
    requires r.kind != k
    ensures GridOf(rs + [r], k) == GridOf(rs, k)
  {
    OtherKindLeavesGrid(rs, r, [], k);
    assert rs + [r] + [] == rs + [r];
    assert rs + [] == rs;
  }

  /** A grid whose hours before 12 + j come from `after` and the rest from
      `before`: the state of the hour loop after j hours. */
  ghost function Blend(before: Grid, after: Grid, j: int): Grid
    requires forall h :: h in DayHours ==> h in before && h in after
  {
    map h | h in DayHours :: if h < 12 + j then after[h] else before[h]
  }

  lemma BlendStep(before: Grid, after: Grid, j: int)
    requires forall h :: h in DayHours ==> h in before && h in after
    requires 0 <= j < 12
    ensures Blend(before, after, j + 1) == Blend(before, after, j)[12 + j := after[12 + j]]
  {
    DayHoursAt();
    var a := Blend(before, after, j + 1);
    var b := Blend(before, after, j)[12 + j := after[12 + j]];
    assert a.Keys == b.Keys;
    forall h | h in a
      ensures a[h] == b[h]
    {
      if h != 12 + j {
        assert b[h] == Blend(before, after, j)[h];
      }
    }
  }

  /** Where an hour row does not change, advancing past it changes nothing. */
  lemma BlendSame(before: Grid, after: Grid, j: int)
    requires forall h :: h in DayHours ==> h in before && h in after
    requires 0 <= j < 12 && 12 + j in before && before[12 + j] == after[12 + j]
    ensures Blend(before, after, j + 1) == Blend(before, after, j)
  {
    DayHoursAt();
    BlendStep(before, after, j);
    var b := Blend(before, after, j);
    assert b[12 + j] == before[12 + j];
    UpdateSame(b, 12 + j);
  }

  lemma UpdateSame(g: Grid, h: int)
    requires h in g
    ensures g[h := g[h]] == g
  {
  }

  lemma BlendEnds(before: Grid, after: Grid)
    requires before.Keys == after.Keys && forall h :: h in before <==> h in DayHours
    ensures Blend(before, after, 0) == before
    ensures Blend(before, after, 12) == after
  {
    DayHoursAt();
    assert Blend(before, after, 0).Keys == before.Keys;
    assert Blend(before, after, 12).Keys == after.Keys;
  }

  /** The rows for the hours before DayHours[j], each holding stations
      1 .. n - 1, all null. */
  ghost function EmptyUpTo(n: int, j: int): Grid {
    map h | h in DayHours && h < 12 + j :: NullsBelow(n)
  }

  lemma EmptyUpToStep(n: int, j: int)
    requires 0 <= j < 12
    ensures EmptyUpTo(n, j + 1) == EmptyUpTo(n, j)[12 + j := NullsBelow(n)]
  {
    DayHoursAt();
    assert EmptyUpTo(n, j + 1).Keys == EmptyUpTo(n, j)[12 + j := NullsBelow(n)].Keys;
  }

  /** All twelve null rows make up the grid of the empty list. */
  lemma EmptyUpToAll(k: Kind)
    ensures EmptyUpTo(StationCount(k) + 1, 12) == GridOf([], k)
  {
    DayHoursAt();
    var x, y := EmptyUpTo(StationCount(k) + 1, 12), GridOf([], k);
    assert x.Keys == y.Keys;
    forall h | h in x
      ensures x[h] == y[h]
    {
      EmptyRow(k, h);
    }
  }

  /** One turn of the hour loop: the blend advances past hour 12 + j by
      writing r into that row exactly when r covers the hour. */
  lemma HourStep(rs: seq<Reservation>, r: Reservation, j: int)
    requires 0 <= j < 12
    ensures var before, after := GridOf(rs, r.kind), GridOf(rs + [r], r.kind);
            var b := Blend(before, after, j);
            Blend(before, after, j + 1)
            == if CoversHour(r, 12 + j) then b[12 + j := b[12 + j][r.station := Some(r)]] else b
  {
    DayHoursAt();
    var before, after := GridOf(rs, r.kind), GridOf(rs + [r], r.kind);
    RowStep(rs, r, 12 + j);
    assert Blend(before, after, j)[12 + j] == before[12 + j];
    if CoversHour(r, 12 + j) {
      BlendStep(before, after, j);
    } else {
      BlendSame(before, after, j);
    }
  }

  /** The hour loop for one reservation: write r into every hour cell of
      its station that its interval overlaps. */
  method MarkHours(grid: Grid, ghost rs: seq<Reservation>, r: Reservation) returns (marked: Grid)
    requires grid == GridOf(rs, r.kind)
    ensures marked == GridOf(rs + [r], r.kind)
  {
    DayHoursAt();
    var startMin := TimeToMinutes(r.time);
    var endMin := SlotEnd(startMin, r.duration);
    ghost var before, after := GridOf(rs, r.kind), GridOf(rs + [r], r.kind);
    BlendEnds(before, after);
    marked := grid;
    for j := 0 to |DayHours|
      invariant marked == Blend(before, after, j)
    {
      var h := DayHours[j];
      var slotStart := h * 60;
      var slotEnd := (h + 1) * 60;
      HourStep(rs, r, j);
      if Lt(startMin, Int(slotEnd)) && Lt(Int(slotStart), endMin) {
        marked := marked[h := marked[h][r.station := Some(r)]];
      }
    }
    assert marked == GridOf(rs + [r], r.kind);
  }

  /** The first pass: every hour row of both kinds, every station null. */
  method EmptyGrids() returns (ps5: Grid, pc: Grid)
    ensures ps5 == GridOf([], Ps5) && pc == GridOf([], Pc)
  {
    DayHoursAt();
    ps5, pc := map[], map[];
    assert ps5 == EmptyUpTo(6, 0) && pc == EmptyUpTo(10, 0);
    for j := 0 to |DayHours|
      invariant ps5 == EmptyUpTo(6, j) && pc == EmptyUpTo(10, j)
    {
      var h := DayHours[j];
      var ps5Row: Row, pcRow: Row := map[], map[];
      for s := 1 to 6
        invariant ps5Row == NullsBelow(s)
      {
        ps5Row := ps5Row[s := None];
      }
      for s := 1 to 10
        invariant pcRow == NullsBelow(s)
      {
        pcRow := pcRow[s := None];
      }
      ps5, pc := ps5[h := ps5Row], pc[h := pcRow];
      EmptyUpToStep(6, j);
      EmptyUpToStep(10, j);
    }
    EmptyUpToAll(Ps5);
    EmptyUpToAll(Pc);
  }

  /** getDayCalendarGrid: the dense empty grids, then each reservation in
      list order written into the grid of its kind. */
  method GetDayCalendarGrid(rs: seq<Reservation>) returns (ps5: Grid, pc: Grid)
    ensures ps5 == GridOf(rs, Ps5) && pc == GridOf(rs, Pc)
  {
    ps5, pc := EmptyGrids();
    for i := 0 to |rs|
      invariant ps5 == GridOf(rs[..i], Ps5) && pc == GridOf(rs[..i], Pc)
    {
      var r := rs[i];
      ghost var done := rs[..i];
      assert rs[..i + 1] == done + [r];
      if r.kind == Ps5 {
        ps5 := MarkHours(ps5, done, r);
        OtherKindAppended(done, r, Pc);
      } else {
        pc := MarkHours(pc, done, r);
        OtherKindAppended(done, r, Ps5);
      }
    }
    assert rs[..|rs|] == rs;
  }

  lemma {:induction false} WritersMembers(rs: seq<Reservation>, k: Kind, h: int, s: int)
    ensures forall x :: x in Writers(rs, k, h, s) <==> x in rs && WritesCell(x, k, h, s)
  {
    if rs != [] {
      WritersMembers(rs[..|rs| - 1], k, h, s);
      assert rs == rs[..|rs| - 1] + [rs[|rs| - 1]];
    }
  }

  lemma {:induction false} NoWriters(rs: seq<Reservation>, k: Kind, h: int, s: int)
    requires forall j :: 0 <= j < |rs| ==> !WritesCell(rs[j], k, h, s)
    ensures Writers(rs, k, h, s) == []
  {
    if rs != [] {
      NoWriters(rs[..|rs| - 1], k, h, s);
    }
  }

  /** The calendar always has exactly the hours 12..23; when every station
      of the kind is in range, every row has exactly stations 1..5 (ps5) or
      1..9 (pc). */
  lemma GridShape(rs: seq<Reservation>, k: Kind)
    requires forall r :: r in rs && r.kind == k ==> 1 <= r.station <= StationCount(k)
    ensures forall h :: h in GridOf(rs, k) <==> 12 <= h <= 23
    ensures forall h, s :: h in GridOf(rs, k) ==> (s in GridOf(rs, k)[h] <==> 1 <= s <= StationCount(k))
  {
    DayHoursAt();
    NullsBelowKeys(StationCount(k) + 1);
  }

  /** With no reservations every cell of both calendars is null. */
  lemma EmptyListAllNull(k: Kind)
    ensures forall h, s :: h in GridOf([], k) && s in GridOf([], k)[h] ==> GridOf([], k)[h][s] == None
  {
  }

  /** A station outside the kind's range adds a key to each hour row the
      reservation covers (`grid[h][r.station] = r` creates it). */
  lemma OutOfRangeStationAddsKey(rs: seq<Reservation>, r: Reservation, h: int)
    requires 12 <= h <= 23 && CoversHour(r, h)
    requires !(1 <= r.station <= StationCount(r.kind))
    ensures r.station in GridOf(rs + [r], r.kind)[h]
    ensures exists s :: s in GridOf(rs + [r], r.kind)[h] && !(1 <= s <= StationCount(r.kind))
  {
    DayHoursAt();
    assert r in rs + [r];
  }

  /** Cell (h, s) of calendar k holds a reservation iff some reservation of
      kind k on station s overlaps the hour [h * 60, (h + 1) * 60). */
  lemma CellIff(rs: seq<Reservation>, k: Kind, h: int, s: int)
    requires 12 <= h <= 23
    ensures (s in GridOf(rs, k)[h] && GridOf(rs, k)[h][s].Some?) <==>
            exists r :: r in rs && r.kind == k && r.station == s && CoversHour(r, h)
  {
    DayHoursAt();
    WritersMembers(rs, k, h, s);
    var w := Writers(rs, k, h, s);
    if w != [] {
      assert w[|w| - 1] in w;
    }
  }

  /** Whatever a cell holds is a reservation of the list on that station,
      of that kind, overlapping that hour. */
  lemma CellHoldsWriter(rs: seq<Reservation>, k: Kind, h: int, s: int)
    requires 12 <= h <= 23
    requires s in GridOf(rs, k)[h] && GridOf(rs, k)[h][s].Some?
    ensures GridOf(rs, k)[h][s].value in rs
    ensures WritesCell(GridOf(rs, k)[h][s].value, k, h, s)
  {
    DayHoursAt();
    WritersMembers(rs, k, h, s);
    var w := Writers(rs, k, h, s);
    assert w[|w| - 1] in w;
  }

  /** Last writer wins: when several reservations cover a cell, it holds
      the last of them in list order. */
  lemma CellIsLastWriter(rs: seq<Reservation>, k: Kind, h: int, i: int)
    requires 12 <= h <= 23 && 0 <= i < |rs|
    requires rs[i].kind == k && CoversHour(rs[i], h)
    requires forall j :: i < j < |rs| ==> !WritesCell(rs[j], k, h, rs[i].station)
    ensures rs[i].station in GridOf(rs, k)[h]
    ensures GridOf(rs, k)[h][rs[i].station] == Some(rs[i])
  {
    DayHoursAt();
    var s := rs[i].station;
    var front, back := rs[..i + 1], rs[i + 1..];
    assert rs == front + back;
    assert front[..i] == rs[..i];
    NoWriters(back, k, h, s);
    WritersConcat(front, back, k, h, s);
    assert Writers(front, k, h, s) + [] == Writers(front, k, h, s);
    assert rs[i] in rs;
  }

  /** The hours a booking marks, for a numeric start: those whose slot
      [h * 60, (h + 1) * 60) meets [start, start + duration * 60). */
  lemma CoversHourIff(r: Reservation, h: int)
    requires TimeToMinutes(r.time).Int?
    ensures CoversHour(r, h) <==>
      TimeToMinutes(r.time).v < (h + 1) * 60 && TimeToMinutes(r.time).v + r.duration * 60 > h * 60
  {
  }

  /** A booking at 14:00 for two hours marks the 14 and 15 cells of its
      station, and neither 13 nor 16. */
  lemma TwoHoursFromFourteen(r: Reservation)
    requires r.time == HourLabel(14) && r.duration == 2
    requires 1 <= r.station <= StationCount(r.kind)
    ensures r.station in GridOf([r], r.kind)[14] && GridOf([r], r.kind)[14][r.station] == Some(r)
    ensures r.station in GridOf([r], r.kind)[15] && GridOf([r], r.kind)[15][r.station] == Some(r)
    ensures r.station in GridOf([r], r.kind)[13] && GridOf([r], r.kind)[13][r.station] == None
    ensures r.station in GridOf([r], r.kind)[16] && GridOf([r], r.kind)[16][r.station] == None
  {
    HourLabelMinutes(14);
    SingleCell(r, 13);
    SingleCell(r, 14);
    SingleCell(r, 15);
    SingleCell(r, 16);
  }

  /** With a single in-range reservation, its station's cell in each shown
      hour is the reservation if it covers that hour and null otherwise. */
  lemma SingleCell(r: Reservation, h: int)
    requires 12 <= h <= 23 && 1 <= r.station <= StationCount(r.kind)
    ensures r.station in GridOf([r], r.kind)[h]
    ensures GridOf([r], r.kind)[h][r.station] == if CoversHour(r, h) then Some(r) else None
  {
    DayHoursAt();
    RowStep([], r, h);
    EmptyRow(r.kind, h);
    NullsBelowKeys(StationCount(r.kind) + 1);
    assert [] + [r] == [r];
  }

  /** A reservation that covers no calendar hour leaves both calendars
      unchanged. */
  lemma UnseenReservation(rs: seq<Reservation>, r: Reservation, k: Kind)
    requires forall h :: 12 <= h <= 23 ==> !CoversHour(r, h)
    ensures GridOf(rs + [r], k) == GridOf(rs, k)
  {
    if r.kind == k {
      DayHoursAt();
      var x, y := GridOf(rs + [r], k), GridOf(rs, k);
      forall h | h in x
        ensures x[h] == y[h]
      {
        RowStep(rs, r, h);
      }
    } else {
      OtherKindAppended(rs, r, k);
    }
  }

  /** The start-time picker offers 24:00, but a booking starting then never
      appears in either calendar, whatever its duration. */
  lemma MidnightStartNotShown(rs: seq<Reservation>, r: Reservation, k: Kind)
    requires r.time == HourLabel(24)
    ensures GridOf(rs + [r], k) == GridOf(rs, k)
  {
    HourLabelMinutes(24);
    UnseenReservation(rs, r, k);
  }

  /** A 23:00 booking marks only the 23 row, however long it runs: the part
      after midnight is not shown. */
  lemma LateBookingClipped(r: Reservation, h: int)
    requires r.time == HourLabel(23) && r.duration >= 1
    requires 12 <= h <= 23
    ensures CoversHour(r, h) <==> h == 23
  {
    HourLabelMinutes(23);
  }

  /** Back-to-back bookings of ps5 station 1 at 12:00 and 13:00, one hour
      each, both appear, each in its own hour, and the first is not
      reported as taken for the second's slot. */
  lemma BackToBack(a: Reservation, b: Reservation)
    requires a.kind == Ps5 && a.station == 1 && a.time == HourLabel(12) && a.duration == 1
    requires b.kind == Ps5 && b.station == 1 && b.time == HourLabel(13) && b.duration == 1
    ensures 1 in GridOf([a, b], Ps5)[12] && GridOf([a, b], Ps5)[12][1] == Some(a)
    ensures 1 in GridOf([a, b], Ps5)[13] && GridOf([a, b], Ps5)[13][1] == Some(b)
    ensures ReservedStations([a], Ps5, b.time, 1) == []
  {
    HourLabelMinutes(12);
    HourLabelMinutes(13);
    assert CoversHour(a, 12) && !CoversHour(b, 12) && CoversHour(b, 13);
    assert [a, b][0] == a && [a, b][1] == b;
    CellIsLastWriter([a, b], Ps5, 12, 0);
    CellIsLastWriter([a, b], Ps5, 13, 1);
    SingleReservation(a, Ps5, b.time, 1);
  }
}

=== FILE: minutes.dfy ===
/** Clock-time arithmetic of lib/reservations.ts: turning an "HH:MM" string
    into minutes since midnight, the way the JavaScript code does it
    (split on ':', convert each part with Number, treat a missing part as 0). */
module Minutes {

  /** A JavaScript number as the scheduling code can produce it: an integer
      or NaN (what Number gives for a string that is not a number). */
  datatype Num = Int(v: int) | NaN

  /** JavaScript `+`: NaN is absorbing. */
  function Add(x: Num, y: Num): Num {
    if x.Int? && y.Int? then Int(x.v + y.v) else NaN
  }

  /** JavaScript `x * k` for an integer constant k. */
  function Scale(x: Num, k: int): Num {
    if x.Int? then Int(x.v * k) else NaN
  }

  /** JavaScript `x < y`: false as soon as either side is NaN. */
  predicate Lt(x: Num, y: Num) {
    x.Int? && y.Int? && x.v < y.v
  }

  /** `s.split(sep)`: the pieces between separators, in order; there is
      always at least one piece ("" splits into [""]). */
  function Split(s: string, sep: char): (parts: seq<string>)
    ensures |parts| >= 1
    ensures forall i :: 0 <= i < |parts| ==> sep !in parts[i]
  {
    if s == [] then [[]]
    else if s[0] == sep then [[]] + Split(s[1..], sep)
    else
      var rest := Split(s[1..], sep);
      [[s[0]] + rest[0]] + rest[1..]
  }

  predicate IsDigit(c: char) {
    '0' <= c <= '9'
  }

  predicate AllDigits(s: string) {
    forall i :: 0 <= i < |s| ==> IsDigit(s[i])
  }

  /** The decimal value of a run of digits; the empty run is 0. */
  function DigitsValue(s: string): nat
    requires AllDigits(s)
  {
    if s == [] then 0 else 10 * DigitsValue(s[..|s| - 1]) + (s[|s| - 1] - '0') as int
  }

  /** `Number(s)` on a string: a run of decimal digits (the empty string
      included) gives its value, anything else gives NaN. */
  function ToNumber(s: string): (n: Num)
    ensures n.Int? <==> AllDigits(s)
    ensures n.Int? ==> n.v >= 0
  {
    if AllDigits(s) then Int(DigitsValue(s)) else NaN
  }

  /** timeToMinutes: hours * 60 + minutes, where the hour is the text before
      the first ':' and the minutes the text between the first and second ':'
      (0 when there is no ':'). */
  function TimeToMinutes(time: string): (m: Num)
    ensures m.Int? ==> m.v >= 0
  {
    var parts := Split(time, ':');
    var h := ToNumber(parts[0]);
    var m := if |parts| > 1 then ToNumber(parts[1]) else Int(0);
    Add(Scale(h, 60), m)
  }

  /** A text with no separator is one piece. */
  lemma {:induction false} SplitNoSep(s: string, sep: char)
    requires sep !in s
    ensures Split(s, sep) == [s]
  {
    if s != [] {
      assert sep !in s[1..];
      SplitNoSep(s[1..], sep);
      assert [s[0]] + s[1..] == s;
    }
  }

  /** Splitting at the first separator. */
  lemma {:induction false} SplitFirst(a: string, sep: char, b: string)
    requires sep !in a
    ensures Split(a + [sep] + b, sep) == [a] + Split(b, sep)
  {
    if a == [] {
      assert a + [sep] + b == [sep] + b;
      assert ([sep] + b)[1..] == b;
    } else {
      assert (a + [sep] + b)[1..] == a[1..] + [sep] + b;
      assert sep !in a[1..];
      SplitFirst(a[1..], sep, b);
      assert [a[0]] + a[1..] == a;
    }
  }

  lemma DigitsHaveNoColon(s: string)
    requires AllDigits(s)
    ensures ':' !in s
  {
  }

  /** For digit strings, timeToMinutes("HH:MM") is HH * 60 + MM. */
  lemma TimeToMinutesDigits(hh: string, mm: string)
    requires AllDigits(hh) && AllDigits(mm)
    ensures TimeToMinutes(hh + ":" + mm) == Int(DigitsValue(hh) * 60 + DigitsValue(mm))
  {
    DigitsHaveNoColon(hh);
    DigitsHaveNoColon(mm);
    SplitFirst(hh, ':', mm);
    SplitNoSep(mm, ':');
    assert hh + ":" + mm == hh + [':'] + mm;
  }

  /** A time without ':' counts as whole hours: the minutes part is 0. */
  lemma TimeToMinutesHoursOnly(hh: string)
    requires AllDigits(hh)
    ensures TimeToMinutes(hh) == Int(DigitsValue(hh) * 60)
  {
    DigitsHaveNoColon(hh);
    SplitNoSep(hh, ':');
  }

  /** A non-numeric hour part makes the whole result NaN, whatever follows. */
  lemma TimeToMinutesBadHour(hh: string, rest: string)
    requires ':' !in hh && !AllDigits(hh)
    ensures TimeToMinutes(hh + ":" + rest) == NaN
  {
    SplitFirst(hh, ':', rest);
    assert hh + ":" + rest == hh + [':'] + rest;
  }

  function DigitChar(d: int): char
    requires 0 <= d <= 9
  {
    ('0' as int + d) as char
  }

  /** The label of a start-time option: `String(h).padStart(2, "0") + ":00"`
      for a two-digit hour. */
  function HourLabel(h: int): (text: string)
    requires 0 <= h <= 99
    ensures |text| == 5 && AllDigits(text[..2]) && text[2..] == ":00"
  {
    [DigitChar(h / 10), DigitChar(h % 10)] + ":00"
  }

  /** Every start-time option parses back to its hour, in minutes. */
  lemma HourLabelMinutes(h: int)
    requires 0 <= h <= 99
    ensures TimeToMinutes(HourLabel(h)) == Int(h * 60)
  {
    var hh := [DigitChar(h / 10), DigitChar(h % 10)];
    assert AllDigits(hh);
    assert hh[..1] == [DigitChar(h / 10)];
    assert [DigitChar(h / 10)][..0] == [];
    assert DigitChar(h / 10) as int - '0' as int == h / 10;
    assert DigitChar(h % 10) as int - '0' as int == h % 10;
    assert DigitsValue(hh[..1]) == h / 10;
    assert DigitsValue(hh) == h;
    assert AllDigits("00");
    assert DigitsValue("00") == 0 by {
      assert "00"[..1] == "0";
      assert "0"[..0] == "";
    }
    assert HourLabel(h) == hh + ":" + "00";
    TimeToMinutesDigits(hh, "00");
  }
}

=== FILE: records.dfy ===
/** The reservation record of lib/reservations.ts and its mapping to and from
    the stored document: docToReservation (reading) and the payload that
    saveReservation writes. The backing collection is modelled as a sequence
    of stored documents that saving appends to. */
module Records {

  datatype Option<T> = None | Some(value: T)

  /** The two station kinds, stored as the strings "ps5" and "pc". */
  datatype Kind = Ps5 | Pc

  /** The `Reservation` type: one booking of one station. `createdAt` is an
      ISO timestamp string; `userId` is optional. */
  datatype Reservation = Reservation(
    id: string,
    kind: Kind,
    station: int,
    date: string,
    time: string,
    duration: int,
    name: string,
    phone: string,
    email: string,
    createdAt: string,
    userId: Option<string>)

  /** The argument of saveReservation: a reservation without `id` and
      `createdAt`, with an optional `userId`. */
  datatype NewReservation = NewReservation(
    kind: Kind,
    station: int,
    date: string,
    time: string,
    duration: int,
    name: string,
    phone: string,
    email: string,
    userId: Option<string>)

  /** What a document's `createdAt` field can hold when it is read back:
      a store timestamp (shown by its ISO text), a plain string, or anything
      else (missing included). */
  datatype Stamp = Timestamp(iso: string) | Text(text: string) | Other

  /** A stored document's data. `kind` is the raw `type` string. */
  datatype Doc = Doc(
    kind: string,
    station: int,
    date: string,
    time: string,
    duration: int,
    name: string,
    phone: string,
    email: string,
    createdAt: Stamp,
    userId: Option<string>)

  /** A document together with the identifier the store gave it. */
  datatype StoredDoc = StoredDoc(id: string, data: Doc)

  /** The stored `type` string of a kind; reading it back gives the kind. */
  function KindName(k: Kind): (name: string)
    ensures KindOf(name) == k
  {
    match k
    case Ps5 => "ps5"
    case Pc => "pc"
  }

  /** `data.type === "pc" ? "pc" : "ps5"`: every other value reads as ps5. */
  function KindOf(s: string): (k: Kind)
    ensures k == Pc <==> s == "pc"
  {
    if s == "pc" then Pc else Ps5
  }

  /** JavaScript truthiness of an optional string: present and non-empty. */
  predicate Truthy(s: Option<string>)
    ensures Truthy(s) <==> s != None && s != Some("")
  {
    s.Some? && s.value != ""
  }

  /** docToReservation. `now` stands for `new Date().toISOString()`, used
      when `createdAt` is neither a timestamp nor a string. */
  function DocToReservation(id: string, d: Doc, now: string): (r: Reservation)
    ensures r.id == id
    ensures r.kind == Pc <==> d.kind == "pc"
    ensures r.userId == None
    ensures r.station == d.station && r.date == d.date && r.time == d.time && r.duration == d.duration
    ensures r.name == d.name && r.phone == d.phone && r.email == d.email
    ensures d.createdAt.Timestamp? ==> r.createdAt == d.createdAt.iso
    ensures d.createdAt.Text? ==> r.createdAt == d.createdAt.text
    ensures d.createdAt.Other? ==> r.createdAt == now
  {
    var createdAt :=
      match d.createdAt
      case Timestamp(iso) => iso
      case Text(text) => text
      case Other => now;
    Reservation(id, KindOf(d.kind), d.station, d.date, d.time, d.duration,
                d.name, d.phone, d.email, createdAt, None)
  }

  /** The payload saveReservation writes. `serverNow` is the time the store
      substitutes for `serverTimestamp()`. */
  function SavePayload(r: NewReservation, serverNow: string): (d: Doc)
    ensures d.userId.Some? <==> Truthy(r.userId)
    ensures d.userId.Some? ==> d.userId == r.userId
    ensures d.kind == "pc" <==> r.kind == Pc
    ensures d.kind == KindName(r.kind)
    ensures d.station == r.station && d.date == r.date && d.time == r.time && d.duration == r.duration
    ensures d.name == r.name && d.phone == r.phone && d.email == r.email
    ensures d.createdAt == Timestamp(serverNow)
  {
    Doc(KindName(r.kind), r.station, r.date, r.time, r.duration, r.name, r.phone, r.email,
        Timestamp(serverNow), if Truthy(r.userId) then r.userId else None)
  }

  /** The value saveReservation returns: its argument spread, with the new
      id and the client's clock reading `now` (userId kept as given). */
  function Saved(r: NewReservation, id: string, now: string): (s: Reservation)
    ensures s.id == id && s.createdAt == now && s.userId == r.userId
    ensures s.kind == r.kind && s.station == r.station && s.date == r.date && s.time == r.time
    ensures s.duration == r.duration && s.name == r.name && s.phone == r.phone && s.email == r.email
  {
    Reservation(id, r.kind, r.station, r.date, r.time, r.duration, r.name, r.phone, r.email, now, r.userId)
  }

  /** Reading back a saved payload gives the saved reservation, except that
      createdAt is the store's time and userId is dropped. */
  lemma SaveThenRead(r: NewReservation, serverNow: string, id: string, now: string)
    ensures DocToReservation(id, SavePayload(r, serverNow), now)
         == Reservation(id, r.kind, r.station, r.date, r.time, r.duration,
                        r.name, r.phone, r.email, serverNow, None)
  {
  }

  /** The documents whose `date` equals `date`, in store order, each read
      with docToReservation. */
  function ForDate(docs: seq<StoredDoc>, date: string, now: string): (rs: seq<Reservation>)
    ensures |rs| <= |docs|
    ensures forall r :: r in rs ==> r.date == date && r.userId == None
  {
    if docs == [] then []
    else
      var last := docs[|docs| - 1];
      var before := ForDate(docs[..|docs| - 1], date, now);
      if last.data.date == date then before + [DocToReservation(last.id, last.data, now)] else before
  }

  /** A reading of the documents of a date after one more save: the new
      reservation is last if it is for that date, absent otherwise. */
  lemma ForDateAfterSave(docs: seq<StoredDoc>, id: string, r: NewReservation, serverNow: string, date: string, now: string)
    ensures ForDate(docs + [StoredDoc(id, SavePayload(r, serverNow))], date, now)
         == if r.date == date
            then ForDate(docs, date, now) + [Reservation(id, r.kind, r.station, r.date, r.time, r.duration,
                                                         r.name, r.phone, r.email, serverNow, None)]
            else ForDate(docs, date, now)
  {
    var all := docs + [StoredDoc(id, SavePayload(r, serverNow))];
    assert all[..|all| - 1] == docs;
  }

  /** Every document of the date is read back. */
  lemma {:induction false} ForDateHolds(docs: seq<StoredDoc>, i: int, date: string, now: string)
    requires 0 <= i < |docs| && docs[i].data.date == date
    ensures DocToReservation(docs[i].id, docs[i].data, now) in ForDate(docs, date, now)
  {
    if i < |docs| - 1 {
      ForDateHolds(docs[..|docs| - 1], i, date, now);
    }
  }

  /** Every reservation the date query yields comes from a stored document
      with that date. */
  lemma {:induction false} ForDateSound(docs: seq<StoredDoc>, date: string, now: string, r: Reservation)
    requires r in ForDate(docs, date, now)
    ensures exists i :: 0 <= i < |docs| && docs[i].data.date == date
                        && r == DocToReservation(docs[i].id, docs[i].data, now)
  {
    var init := docs[..|docs| - 1];
    var last := docs[|docs| - 1];
    if last.data.date == date && r == DocToReservation(last.id, last.data, now) {
    } else {
      assert r in ForDate(init, date, now);
      ForDateSound(init, date, now, r);
      var i :| 0 <= i < |init| && init[i].data.date == date
                && r == DocToReservation(init[i].id, init[i].data, now);
      assert docs[i] == init[i];
    }
  }

  /** The backing collection: an append-only sequence of documents. */
  class Store {
    var docs: seq<StoredDoc>

    constructor (initial: seq<StoredDoc>)
      ensures docs == initial
    {
      docs := initial;
    }

    /** saveReservation: append the payload under the identifier `id` the
        store assigns, and return the argument with `id` and the client's
        clock reading `now`. */
    method Save(r: NewReservation, id: string, serverNow: string, now: string) returns (saved: Reservation)
      modifies this
      ensures docs == old(docs) + [StoredDoc(id, SavePayload(r, serverNow))]
      ensures saved == Saved(r, id, now)
    {
      docs := docs + [StoredDoc(id, SavePayload(r, serverNow))];
      saved := Saved(r, id, now);
    }
  }
}

=== FILE: reservation_form.dfy ===
/** The station-reservation form of components/ReservationContent.tsx,
    without its markup: the state the component keeps, the station picker,
    toggleStation, the type buttons and handleSubmit. */
module ReservationForm {
  import opened Minutes
  import opened Records
  import opened Conflicts
  import opened Selection

  /** HOURS: the start-time options 12..24, thirteen of them. */
  const Hours: seq<int> := [12, 13, 14, 15, 16, 17, 18, 19, 20, 21, 22, 23, 24]

  /** The documents one submission appends: for each selected station, in
      order, the shared fields of `template` with that station, stored
      under the next identifier of `ids`. */
  function Batch(stations: seq<int>, ids: seq<string>, template: NewReservation, serverNow: string): (docs: seq<StoredDoc>)
    requires |ids| >= |stations|
    ensures |docs| == |stations|
  {
    if stations == [] then []
    else [StoredDoc(ids[0], SavePayload(template.(station := stations[0]), serverNow))]
         + Batch(stations[1..], ids[1..], template, serverNow)
  }

  /** One document per selected station, in selection order, differing
      only in the station and the identifier. */
  lemma {:induction false} BatchDocs(stations: seq<int>, ids: seq<string>, template: NewReservation, serverNow: string)
    requires |ids| >= |stations|
    ensures forall i :: 0 <= i < |stations| ==>
      Batch(stations, ids, template, serverNow)[i] ==
        StoredDoc(ids[i], SavePayload(template.(station := stations[i]), serverNow))
  {
    if stations != [] {
      BatchDocs(stations[1..], ids[1..], template, serverNow);
    }
  }

  /** After a batch for a slot is stored, reading the date back reports
      every one of its stations as taken for that same slot. */
  lemma BatchStationsReserved(docs: seq<StoredDoc>, stations: seq<int>, ids: seq<string>,
                              template: NewReservation, serverNow: string, now: string, s: int)
    requires |ids| >= |stations|
    requires TimeToMinutes(template.time).Int? && template.duration >= 1
    requires s in stations
    ensures s in ReservedStations(ForDate(docs + Batch(stations, ids, template, serverNow), template.date, now),
                                  template.kind, template.time, template.duration)
  {
    var all := docs + Batch(stations, ids, template, serverNow);
    var i :| 0 <= i < |stations| && stations[i] == s;
    var k := |docs| + i;
    BatchDocs(stations, ids, template, serverNow);
    assert all[k] == Batch(stations, ids, template, serverNow)[i];
    ForDateHolds(all, k, template.date, now);
    var r := DocToReservation(all[k].id, all[k].data, now);
    var start := TimeToMinutes(template.time);
    assert Clashes(r, start, SlotEnd(start, template.duration));
    ReservedMembers(ForDate(all, template.date, now), template.kind, template.time, template.duration);
  }

  /** All stations of a stored batch read back as taken for its slot. */
  lemma SubmittedStationsReserved(docs: seq<StoredDoc>, stations: seq<int>, ids: seq<string>,
                                  template: NewReservation, serverNow: string, now: string)
    requires |ids| >= |stations|
    requires TimeToMinutes(template.time).Int? && template.duration >= 1
    ensures forall s :: s in stations ==>
      s in ReservedStations(ForDate(docs + Batch(stations, ids, template, serverNow), template.date, now),
                            template.kind, template.time, template.duration)
  {
    forall s | s in stations
      ensures s in ReservedStations(ForDate(docs + Batch(stations, ids, template, serverNow), template.date, now),
                                    template.kind, template.time, template.duration)
    {
      BatchStationsReserved(docs, stations, ids, template, serverNow, now, s);
    }
  }

  /** A selection the picker can hold: sorted, duplicate-free, within
      1..max, and at most one station while ps5 is chosen. */
  ghost predicate SelectionFits(sel: seq<int>, kind: Option<Kind>, max: int) {
    StrictlyAscending(sel) &&
    (forall s :: s in sel ==> 1 <= s <= max) &&
    (kind == Some(Ps5) ==> |sel| <= 1)
  }

  class Form {
    /** The signed-in user's uid; None while signed out. */
    var user: Option<string>
    var kind: Option<Kind>
    var selected: seq<int>
    var date: string
    var time: string
    /** `Number(duration)`: the select offers 1..4 hours, and its value
        string is never empty, so the `duration` truth test always passes. */
    var duration: int
    var name: string
    var phone: string
    var email: string
    var reservations: seq<Reservation>
    var submitted: bool

    /** The selection stays sorted and duplicate-free, holds only stations
        the picker shows, and at most one while ps5 is chosen; the duration
        is one of the select's options. */
    ghost predicate Valid()
      reads this
    {
      SelectionFits(selected, kind, MaxStation()) && 1 <= duration <= 4
    }

    /** The component's initial state for a given sign-in state. */
    constructor (user: Option<string>)
      ensures Valid()
      ensures this.user == user && kind == None && selected == [] && date == "" && time == ""
      ensures duration == 1 && name == "" && phone == "" && email == ""
      ensures reservations == [] && !submitted
    {
      this.user := user;
      kind := None;
      selected := [];
      date := "";
      time := "";
      duration := 1;
      name := "";
      phone := "";
      email := "";
      reservations := [];
      submitted := false;
    }

    /** maxStation. */
    function MaxStation(): (n: nat)
      reads this`kind
      ensures n == 0 <==> kind == None
      ensures kind == Some(Ps5) ==> n == 5
      ensures kind == Some(Pc) ==> n == 9
    {
      match kind
      case Some(Ps5) => 5
      case Some(Pc) => 9
      case None => 0
    }

    /** The stations the picker shows: 1..5 for ps5, 1..9 for pc, none
        until a type is chosen. */
    function Stations(): (r: seq<int>)
      reads this`kind
      ensures kind == Some(Ps5) ==> forall s :: s in r <==> 1 <= s <= 5
      ensures kind == Some(Pc) ==> forall s :: s in r <==> 1 <= s <= 9
      ensures kind == None ==> r == []
      ensures StrictlyAscending(r)
    {
      var r := seq(MaxStation(), i => i + 1);
      assert forall s :: s in r <==> 1 <= s <= MaxStation() by {
        forall s | 1 <= s <= MaxStation()
          ensures s in r
        {
          assert r[s - 1] == s;
        }
      }
      r
    }

    /** `new Date().toISOString().slice(0, 10)` is the parameter `today`. */
    function DisplayDate(today: string): (d: string)
      reads this`date
      ensures date != "" ==> d == date
      ensures date == "" ==> d == today
      ensures d == "" <==> date == "" && today == ""
    {
      if date != "" then date else today
    }

    /** reservedStationNums: empty until type and time are set, then the
        stations of the chosen kind taken during the chosen slot. */
    function ReservedStationNums(): (r: seq<int>)
      reads this`kind, this`time, this`duration, this`reservations
      ensures kind == None || time == "" ==> r == []
      ensures kind.Some? && time != "" ==> r == ReservedStations(reservations, kind.value, time, duration)
      ensures NoDuplicates(r)
      ensures forall s :: s in r <==> (kind.Some? && time != "" &&
        exists x :: x in reservations && x.kind == kind.value && x.station == s &&
                    Clashes(x, TimeToMinutes(time), SlotEnd(TimeToMinutes(time), duration)))
    {
      if kind.Some? && time != "" then
        ReservedMembers(reservations, kind.value, time, duration);
        ReservedStations(reservations, kind.value, time, duration)
      else []
    }

    /** The submit guard: signed in, a type, at least one station, a time,
        and non-empty name, phone and email. */
    predicate CanSubmit()
      reads this
      ensures CanSubmit() ==> user.Some? && kind.Some? && |selected| >= 1
    {
      user.Some? && kind.Some? && |selected| > 0 && time != "" && name != "" && phone != "" && email != ""
    }

    /** The ps5 and pc buttons: choose the type and empty the selection. */
    method SelectType(k: Kind)
      requires Valid()
      modifies this`kind, this`selected
      ensures Valid()
      ensures kind == Some(k) && selected == []
    {
      kind := Some(k);
      selected := [];
    }

    /** The date input; the re-fetch it triggers is LoadReservations. */
    method SetDate(d: string)
      requires Valid()
      modifies this`date
      ensures Valid()
      ensures date == d
    {
      date := d;
    }

    /** The time select ("" or one of Hours as "HH:00"). */
    method SetTime(t: string)
      requires Valid()
      modifies this`time
      ensures Valid()
      ensures time == t
    {
      time := t;
    }

    /** The duration select. */
    method SetDuration(hours: int)
      requires Valid() && 1 <= hours <= 4
      modifies this`duration
      ensures Valid() && duration == hours
    {
      duration := hours;
    }

    /** The name, phone and email inputs. */
    method SetContact(n: string, p: string, e: string)
      requires Valid()
      modifies this`name, this`phone, this`email
      ensures Valid()
      ensures name == n && phone == p && email == e
    {
      name, phone, email := n, p, e;
    }

    /** The list a fetch for the displayed date delivered. */
    method LoadReservations(list: seq<Reservation>)
      requires Valid()
      modifies this`reservations
      ensures Valid()
      ensures reservations == list
    {
      reservations := list;
    }

    /** toggleStation for the picker button of station num. A reserved
        station leaves the selection alone; ps5 keeps at most one station;
        pc flips num's membership and keeps the selection sorted. */
    method ToggleStation(num: int)
      requires Valid() && num in Stations()
      modifies this`selected
      ensures Valid()
      ensures num in ReservedStationNums() ==> selected == old(selected)
      ensures num !in ReservedStationNums() && kind == Some(Ps5) ==>
        selected == if num in old(selected) then [] else [num]
      ensures num !in ReservedStationNums() && kind != Some(Ps5) ==>
        forall x :: x in selected <==> (if x == num then num !in old(selected) else x in old(selected))
    {
      var isReserved := num in ReservedStationNums();
      var isSelected := num in selected;
      if isReserved {
        return;
      }
      ghost var max := MaxStation();
      assert 1 <= num <= max;
      if kind == Some(Ps5) {
        var next := ToggleOne(num, isSelected);
        assert SelectionFits(next, kind, max) by {
          assert next == if isSelected then [] else [num];
        }
        selected := next;
      } else {
        var next := ToggleMany(selected, num, isSelected);
        assert SelectionFits(next, kind, max) &&
               forall x :: x in next <==> (if x == num then !isSelected else x in selected) by {
          ToggleManyFlips(selected, num);
        }
        selected := next;
      }
    }

    /** handleSubmit: when the guard passes, one save per selected station
        in selection order, all with the same date, time, duration, contact
        fields and userId; then the date is read back, the success flag is
        set and the selection emptied. Otherwise nothing happens. `ids` are
        the identifiers the store assigns, `serverNow` its clock, `now` the
        client's. */
    method HandleSubmit(store: Store, today: string, ids: seq<string>, serverNow: string, now: string)
      requires Valid()
      requires |ids| >= |selected|
      modifies this`reservations, this`submitted, this`selected, store
      ensures Valid()
      ensures !old(CanSubmit()) ==> unchanged(this) && unchanged(store)
      ensures old(CanSubmit()) ==>
        store.docs == old(store.docs) + Batch(old(selected), ids, Template(today), serverNow) &&
        reservations == ForDate(store.docs, DisplayDate(today), now) &&
        submitted && selected == []
      ensures old(CanSubmit()) && TimeToMinutes(time).Int? ==>
        forall s :: s in old(selected) ==> s in ReservedStations(reservations, kind.value, time, duration)
    {
      if !CanSubmit() {
        return;
      }
      var reservationDate := DisplayDate(today);
      var template := Template(today);
      var stations := selected;
      SaveEach(store, stations, ids, template, serverNow, now);
      assert store.docs == old(store.docs) + Batch(stations, ids, template, serverNow);
      reservations := ForDate(store.docs, reservationDate, now);
      submitted := true;
      selected := [];
      if TimeToMinutes(time).Int? {
        assert template.date == reservationDate && template.kind == kind.value;
        assert template.time == time && template.duration == duration;
        SubmittedStationsReserved(old(store.docs), stations, ids, template, serverNow, now);
      }
      assert Template(today) == template && DisplayDate(today) == reservationDate;
    }

    /** The sign-in effect: once a user is known, an empty email or name is
        filled from the account's email or display name (when they are
        non-empty). */
    method Prefill(userEmail: Option<string>, displayName: Option<string>)
      requires Valid()
      modifies this`email, this`name
      ensures Valid()
      ensures user.None? ==> email == old(email) && name == old(name)
      ensures user.Some? && Truthy(userEmail) && old(email) == "" ==> email == userEmail.value
      ensures !(user.Some? && Truthy(userEmail) && old(email) == "") ==> email == old(email)
      ensures user.Some? && Truthy(displayName) && old(name) == "" ==> name == displayName.value
      ensures !(user.Some? && Truthy(displayName) && old(name) == "") ==> name == old(name)
    {
      if user.None? {
        return;
      }
      if Truthy(userEmail) && email == "" {
        email := userEmail.value;
      }
      if Truthy(displayName) && name == "" {
        name := displayName.value;
      }
    }

    /** The fields every save of a submission shares (station aside). */
    function Template(today: string): (t: NewReservation)
      reads this`kind, this`user, this`date, this`time, this`duration, this`name, this`phone, this`email
      requires kind.Some? && user.Some?
      ensures t.kind == kind.value && t.date == DisplayDate(today) && t.time == time
      ensures t.duration == duration && t.name == name && t.phone == phone && t.email == email
      ensures t.userId == user
    {
      NewReservation(kind.value, 0, DisplayDate(today), time, duration, name, phone, email, user)
    }
  }

  /** `for (const station of selectedStations) await saveReservation(...)`:
      one save per station, in order, each with the shared fields. */
  method SaveEach(store: Store, stations: seq<int>, ids: seq<string>, template: NewReservation,
                  serverNow: string, now: string)
    requires |ids| >= |stations|
    modifies store
    ensures store.docs == old(store.docs) + Batch(stations, ids, template, serverNow)
  {
    for i := 0 to |stations|
      invariant store.docs == old(store.docs) + Batch(stations[..i], ids, template, serverNow)
    {
      BatchStep(stations, ids, template, serverNow, i);
      var _ := store.Save(template.(station := stations[i]), ids[i], serverNow, now);
    }
    assert stations[..|stations|] == stations;
  }

  lemma BatchStep(stations: seq<int>, ids: seq<string>, template: NewReservation, serverNow: string, i: int)
    requires 0 <= i < |stations| && |ids| >= |stations|
    ensures Batch(stations[..i + 1], ids, template, serverNow)
         == Batch(stations[..i], ids, template, serverNow)
            + [StoredDoc(ids[i], SavePayload(template.(station := stations[i]), serverNow))]
  {
    var a := Batch(stations[..i + 1], ids, template, serverNow);
    var b := Batch(stations[..i], ids, template, serverNow)
             + [StoredDoc(ids[i], SavePayload(template.(station := stations[i]), serverNow))];
    assert |a| == |b|;
    BatchDocs(stations[..i + 1], ids, template, serverNow);
    BatchDocs(stations[..i], ids, template, serverNow);
    forall j | 0 <= j < |a|
      ensures a[j] == b[j]
    {
    }
  }

  /** `HOURS` is the thirteen hours 12..24 in order. */
  lemma HoursAt()
    ensures |Hours| == 13
    ensures forall j :: 0 <= j < 13 ==> Hours[j] == 12 + j
  {
  }

  /** The values of the time select: "" ("--") followed by the label of
      each hour of Hours. */
  function TimeOptions(): (opts: seq<string>)
    ensures |opts| == |Hours| + 1 && opts[0] == ""
    ensures forall i :: 1 <= i < |opts| ==> opts[i] == HourLabel(Hours[i - 1])
  {
    [""] + seq(|Hours|, i requires 0 <= i < |Hours| => HourLabel(Hours[i]))
  }

  /** Every start-time option other than "--" reads back as its hour in
      minutes, from 12:00 (720) to 24:00 (1440); "--" disables the
      reserved-station lookup. */
  lemma TimeOptionsMinutes()
    ensures forall i :: 1 <= i < |TimeOptions()| ==>
      TimeToMinutes(TimeOptions()[i]) == Int((11 + i) * 60)
    ensures TimeOptions()[1] == "12:00" && TimeOptions()[13] == "24:00"
  {
    HoursAt();
    var opts := TimeOptions();
    forall i | 1 <= i < |opts|
      ensures TimeToMinutes(opts[i]) == Int((11 + i) * 60)
    {
      assert opts[i] == HourLabel(11 + i);
      HourLabelMinutes(11 + i);
    }
  }
}

=== FILE: selection.dfy ===
/** The next-selection computations inside toggleStation of
    components/ReservationContent.tsx: removing a station with `filter`,
    and adding one with a spread followed by a numeric `sort`. */
module Selection {

  predicate Ascending(s: seq<int>) {
    forall i, j :: 0 <= i < j < |s| ==> s[i] <= s[j]
  }

  /** Sorted ascending and free of duplicates. */
  predicate StrictlyAscending(s: seq<int>) {
    forall i, j :: 0 <= i < j < |s| ==> s[i] < s[j]
  }

  lemma ConsAscendingWeak(a: int, t: seq<int>)
    requires Ascending(t) && forall y :: y in t ==> a <= y
    ensures Ascending([a] + t)
  {
    var s := [a] + t;
    forall i, j | 0 <= i < j < |s|
      ensures s[i] <= s[j]
    {
      if i == 0 {
        assert s[j] == t[j - 1];
        assert t[j - 1] in t;
      } else {
        assert s[i] == t[i - 1] && s[j] == t[j - 1];
      }
    }
  }

  lemma ConsStrictlyAscending(a: int, t: seq<int>)
    requires StrictlyAscending(t) && forall y :: y in t ==> a < y
    ensures StrictlyAscending([a] + t)
  {
    var s := [a] + t;
    forall i, j | 0 <= i < j < |s|
      ensures s[i] < s[j]
    {
      if i == 0 {
        assert s[j] == t[j - 1];
        assert t[j - 1] in t;
      } else {
        assert s[i] == t[i - 1] && s[j] == t[j - 1];
      }
    }
  }

  /** The first element of an ascending list bounds the rest. */
  lemma HeadBounds(s: seq<int>)
    requires |s| > 0
    ensures Ascending(s) ==> Ascending(s[1..]) && forall y :: y in s[1..] ==> s[0] <= y
    ensures StrictlyAscending(s) ==> StrictlyAscending(s[1..]) && forall y :: y in s[1..] ==> s[0] < y
  {
    forall y | y in s[1..]
      ensures exists j :: 0 < j < |s| && s[j] == y
    {
      var k :| 0 <= k < |s[1..]| && s[1..][k] == y;
      assert s[k + 1] == y;
    }
  }

  /** `prev.filter((s) => s !== num)`. */
  function Without(s: seq<int>, num: int): (r: seq<int>)
    ensures forall x :: x in r <==> x in s && x != num
    ensures |r| <= |s|
    ensures StrictlyAscending(s) ==> StrictlyAscending(r)
  {
    if s == [] then []
    else
      var rest := Without(s[1..], num);
      assert s == [s[0]] + s[1..];
      HeadBounds(s);
      if s[0] == num then rest
      else if StrictlyAscending(s) then
        ConsStrictlyAscending(s[0], rest);
        [s[0]] + rest
      else [s[0]] + rest
  }

  /** The filter drops every copy of num and keeps every other value as
      many times as it occurs. */
  lemma {:induction false} WithoutCounts(s: seq<int>, num: int)
    ensures multiset(Without(s, num)) == multiset(s)[num := 0]
  {
    if s != [] {
      WithoutCounts(s[1..], num);
      assert s == [s[0]] + s[1..];
    }
  }

  /** Insert x in front of the first element greater than it. */
  function Insert(x: int, s: seq<int>): (r: seq<int>)
    ensures multiset(r) == multiset(s) + multiset{x}
  {
    if s == [] then [x]
    else
      assert s == [s[0]] + s[1..];
      if x < s[0] then [x] + s else [s[0]] + Insert(x, s[1..])
  }

  /** The inserted list holds exactly the old values and x. */
  lemma InsertMembers(x: int, s: seq<int>)
    ensures forall y :: y in Insert(x, s) <==> y in s || y == x
  {
    assert forall y :: y in Insert(x, s) <==> y in multiset(s) + multiset{x};
  }

  /** Inserting into an ascending list keeps it ascending. */
  lemma {:induction false} InsertAscending(x: int, s: seq<int>)
    requires Ascending(s)
    ensures Ascending(Insert(x, s))
  {
    if s != [] {
      assert s == [s[0]] + s[1..];
      HeadBounds(s);
      if x < s[0] {
        ConsAscendingWeak(x, s);
      } else {
        InsertAscending(x, s[1..]);
        InsertMembers(x, s[1..]);
        ConsAscendingWeak(s[0], Insert(x, s[1..]));
      }
    }
  }

  /** Inserting a new value into a strictly ascending list keeps it
      strictly ascending. */
  lemma {:induction false} InsertStrict(x: int, s: seq<int>)
    requires StrictlyAscending(s) && x !in s
    ensures StrictlyAscending(Insert(x, s))
  {
    if s != [] {
      assert s == [s[0]] + s[1..];
      HeadBounds(s);
      if x < s[0] {
        ConsStrictlyAscending(x, s);
      } else {
        assert x !in s[1..];
        InsertStrict(x, s[1..]);
        InsertMembers(x, s[1..]);
        ConsStrictlyAscending(s[0], Insert(x, s[1..]));
      }
    }
  }

  /** `.sort((a, b) => a - b)`: the elements in ascending numeric order. */
  function SortAscending(s: seq<int>): (r: seq<int>)
    ensures Ascending(r)
    ensures multiset(r) == multiset(s)
  {
    if s == [] then []
    else
      assert s == s[..|s| - 1] + [s[|s| - 1]];
      InsertAscending(s[|s| - 1], SortAscending(s[..|s| - 1]));
      Insert(s[|s| - 1], SortAscending(s[..|s| - 1]))
  }

  lemma {:induction false} InsertLargest(x: int, s: seq<int>)
    requires forall y :: y in s ==> y <= x
    ensures Insert(x, s) == s + [x]
  {
    if s != [] {
      assert s[0] in s;
      assert forall y :: y in s[1..] ==> y in s;
      InsertLargest(x, s[1..]);
    }
  }

  /** Sorting a list that is already in ascending order leaves it as it is. */
  lemma {:induction false} SortAscendingFixes(s: seq<int>)
    requires Ascending(s)
    ensures SortAscending(s) == s
  {
    if s != [] {
      var init := s[..|s| - 1];
      SortAscendingFixes(init);
      InsertLargest(s[|s| - 1], init);
      assert init + [s[|s| - 1]] == s;
    }
  }

  /** Adding: spread the selection, append num and sort. */
  function AddStation(prev: seq<int>, num: int): (next: seq<int>)
    ensures Ascending(next)
    ensures multiset(next) == multiset(prev) + multiset{num}
  {
    SortAscending(prev + [num])
  }

  /** Adding a station that is not selected to a sorted duplicate-free
      selection puts it in its place: the result is sorted, free of
      duplicates, and holds exactly the old stations and num. */
  lemma AddStationInPlace(prev: seq<int>, num: int)
    requires StrictlyAscending(prev) && num !in prev
    ensures AddStation(prev, num) == Insert(num, prev)
    ensures StrictlyAscending(AddStation(prev, num))
    ensures forall x :: x in AddStation(prev, num) <==> x in prev || x == num
  {
    var s := prev + [num];
    assert s[..|s| - 1] == prev;
    SortAscendingFixes(prev);
    InsertStrict(num, prev);
    InsertMembers(num, prev);
  }

  /** The pc toggle: remove num when selected, otherwise add it. */
  function ToggleMany(prev: seq<int>, num: int, isSelected: bool): (next: seq<int>)
    ensures isSelected ==> forall x :: x in next <==> x in prev && x != num
    ensures !isSelected ==> multiset(next) == multiset(prev) + multiset{num}
  {
    if isSelected then Without(prev, num) else AddStation(prev, num)
  }

  /** The ps5 toggle: `isSelected ? [] : [num]`. */
  function ToggleOne(num: int, isSelected: bool): (r: seq<int>)
    ensures |r| <= 1
    ensures r == [] <==> isSelected
    ensures forall x :: x in r <==> x == num && !isSelected
  {
    if isSelected then [] else [num]
  }

  /** The pc toggle flips exactly num's membership and keeps the selection
      sorted and free of duplicates. */
  lemma ToggleManyFlips(prev: seq<int>, num: int)
    requires StrictlyAscending(prev)
    ensures StrictlyAscending(ToggleMany(prev, num, num in prev))
    ensures forall x :: x in ToggleMany(prev, num, num in prev) <==> (if x == num then num !in prev else x in prev)
  {
    if num !in prev {
      AddStationInPlace(prev, num);
    }
  }
}
